=== FILE: README.md ===
# Pollinator matching game: the drag-end controller

This project models the matching logic of the level scenes in a browser
matching game about pollinators. Each scene shows one crop card (the target)
and nine insect cards. The player drags insect cards onto the crop card. When
a drag ends, the scene decides whether the drop is a match, updates its
counters, and may raise a popup.

Two scenes make up the core:

- **Level 1** (`src/game/scenes/lvl1.jsx`) numbers the cards 1..9 and gives the
  target the number 5. A drop matches when the card is strictly within 50
  units of the target and its number equals the target's. Every match raises
  the "you are correct" popup. Every miss from the sixth on raises the
  "correct answer" popup. No completion guard applies.
- **Level 9** (`src/game/scenes/lvl9.jsx`) accepts three names: Honey bee,
  Solitary bee and Stingless bees. A matched name goes into `correctMatches`.
  The congratulations popup fires when that set holds three names. The answer
  popup fires from the sixth miss on, but only while fewer than three answers
  are matched.

The model has one generic controller, `Controller.OnDragEnd`, which is a pure
step `(level, session, card, drop point, drag start) -> (session', outcome,
resting point)`. A `Level` value configures it: its targets, its cards, its
`Rule` (`ByNumber` for level 1, `ByName(answers)` for level 9) and its attempt
limit. `Levels.Lvl1` and `Levels.Lvl9` are the two scenes' configurations.
`Controller.Run` folds the step over any sequence of drops: one visit to a
scene. `Controller.Reenter` is what a later `scene.start` of the same scene
does to the session.

Modules:

- `Wrappers` (wrappers.dfy) holds `Option`.
- `Geometry` (geometry.dfy) holds points and the proximity test. The scene
  tests `Phaser.Math.Distance.Between(...) < 50`. The model compares squared
  distance with 2500 in exact reals, and a lemma shows that this is the same
  test as comparing the distance itself.
- `Labels` (labels.dfy) holds `String.prototype.replace` with a one-character
  string pattern and a replacement string containing no `$`. That call
  replaces the first occurrence only.
- `Controller` (controller.dfy) holds the session, the step, the run, and the
  generic invariants.
- `Levels` (levels.dfy) holds the two scene configurations, the card layout,
  the captions, and the properties specific to each level.

The following points are settled from the code:

- The outcome is `Match`, `Complete`, `Fail` or `Reveal`.
  - `Complete` is a match that raises the success popup. On level 1 that is
    every match. On level 9 it is the match that brings `correctMatches` to
    three names.
  - `Reveal` is a miss that raises the answer popup.
- On level 9 the card and target `number` properties are never set. They are
  `None`. Level 9 never compares them.
- `rectangleCards.find` is modelled as a first-match search over a sequence of
  targets. Both scenes have exactly one target.
- A matched card is hidden with `setVisible(false)`. The host input system
  does not hit-test invisible objects, so a hidden card never ends another
  drag. `Controller.Deliver` models that gate. `OnDragEnd` itself has no
  hidden check, just as the scene's handler has none.
- Level 9's layout depends on `window.innerHeight < 900`. The model takes that
  test's result as the boolean parameter `compact`.
- Level 1's answer popup has no completion guard (src/game/scenes/lvl1.jsx:206-210),
  so it also fires after Honey bee has been matched.
  `Levels.Lvl1RevealsAfterCompletion` shows this. Level 1 records no names:
  its `correctMatches` stays empty.
- Drops are still processed after the answer popup has been raised, and the
  model keeps processing them.
- The game registers each scene class once (src/main.jsx:26), so each
  constructor runs once per game. `scene.start` runs `create()` again, which
  rebuilds the cards, all visible. It does not reset `incorrectAttempts` or
  `correctMatches`. A second visit to a level therefore starts from
  `Controller.Reenter` of the session the previous visit left, not from
  `Controller.Init`. `Levels.Lvl1Reentry` and `Levels.Lvl9Reentry` show the
  consequences.

## Model

| member | source | states |
|---|---|---|
| `Geometry.CloseEnoughIffDistanceBelow` | src/game/scenes/lvl1.jsx:212-216 | the squared-distance test holds exactly when the distance is strictly below 50, so a drop at distance exactly 50 or more is not close enough |
| `Labels.ReplaceFirst` | src/game/scenes/lvl1.jsx:133 | `replace` with a one-character pattern leaves a string without that character unchanged; otherwise the result is everything before the first occurrence, then the replacement, then everything after it |
| `Labels.ReplaceSole` | src/game/scenes/lvl9.jsx:212 | a string `a + c + b` with no `c` in `a` or `b` becomes `a + rep + b` |
| `Controller.FindTarget` | src/game/scenes/lvl1.jsx:169-171 | `find` returns the first target the card matches, or nothing when no target matches |
| `Controller.OnDragEnd` | src/game/scenes/lvl9.jsx:246-285 | the drop matches iff some target is strictly within 50 and accepts the card; a match hides the card, records its name under the name rule, keeps the attempt count, rests the card on the first target, in order, that is within 50 and accepts it and signals completion iff the level's completion test holds; a miss adds exactly one attempt, changes nothing else, returns the card to its drag start and signals reveal iff the level's reveal guard holds |
| `Controller.RunHidesOneCardPerMatch` | src/game/scenes/lvl9.jsx:268-270 | since a hidden card ends no further drag, every accepted drop hides a card that was still visible: over any drop sequence the number of hidden cards grows by exactly the number of matches |
| `Controller.Run` | src/game/scenes/lvl1.jsx:183 | over any drop sequence the attempt count grows by exactly the number of misses (so it never decreases), and hidden cards and recorded matches only grow |
| `Controller.InitValid` | src/game/scenes/lvl9.jsx:11-14 | the constructor's state (no attempts, no recorded matches, every card visible) satisfies the session invariant of every level |
| `Controller.StepPreservesValid` | src/game/scenes/lvl9.jsx:268-271 | one drop preserves the invariant: only acceptable cards are hidden, and under the name rule the recorded matches are exactly the names of the hidden cards |
| `Controller.RunPreservesValid` | src/game/scenes/lvl9.jsx:268-271 | any drop sequence preserves the same invariant |
| `Controller.UnmatchableNeverMatches` | src/game/scenes/lvl9.jsx:249-251 | a card that no target accepts never matches, wherever it is dropped, and returns to its drag start |
| `Controller.FarDropIsMiss` | src/game/scenes/lvl1.jsx:169-185 | a drop at squared distance 2500 or more from every target is a miss and adds one attempt, whatever the card |
| `Controller.MatchesWithinAnswers` | src/game/scenes/lvl9.jsx:13-14 | under the name rule the recorded matches are a subset of the answers and there are at most as many as answers |
| `Controller.FinishedRunOnlyMisses` | src/game/scenes/lvl1.jsx:173-185 | once every acceptable card is hidden, every later outcome is a miss |
| `Controller.CompleteWhenFinished` | src/game/scenes/lvl9.jsx:268-277 | on a level whose finishing match raises the success signal, a run that starts with a card left to match and ends with every matchable card hidden has emitted that signal at least once |
| `Controller.CompleteCountWithinMatches` | src/game/scenes/lvl9.jsx:268-277 | the success popup is raised only inside the match branch, so a run has no more success signals than matches |
| `Controller.CompleteMeansAllAnswers` | src/game/scenes/lvl9.jsx:273-277 | under the name rule, a run that raised the success popup ends with at least as many recorded matches as there are answers |
| `Controller.CompleteAtMostOnce` | src/game/scenes/lvl9.jsx:273-277 | on a level whose success signal leaves nothing to match, a run emits that signal at most once, and never once the level is finished |
| `Levels.CardLayout` | src/game/scenes/lvl1.jsx:118-123 | card i sits at x = (i+1)·width/10; on a positive width all nine lie strictly inside (0, width) in strictly increasing order |
| `Levels.CardNameShapes` | src/game/scenes/lvl1.jsx:113-116 | Stingless_bees, Solitary_bee and Honey_bee hold exactly one underscore between two words; the other six names hold none; card 4 is Honey_bee |
| `Levels.Captions` | src/game/scenes/lvl9.jsx:209-213 | a name `a_b` is captioned "ab" on level 1 and "a b" on level 9; a name without an underscore is its own caption |
| `Levels.Lvl1MatchIff` | src/game/scenes/lvl1.jsx:166-175 | on level 1 a drop matches iff it is card 4 (Honey_bee, number 5 = target number) released strictly within 50 of the target |
| `Levels.Lvl1MatchEffect` | src/game/scenes/lvl1.jsx:188-196 | a level 1 match always raises the success popup, hides card 4, leaves every counter unchanged and rests the card on the target |
| `Levels.Lvl1RevealUnguarded` | src/game/scenes/lvl1.jsx:206-210 | a level 1 miss adds one attempt, returns the card to its drag start, and raises the answer popup iff the new count is at least 6, with no completion condition |
| `Levels.Lvl1RevealsAfterCompletion` | src/game/scenes/lvl1.jsx:206-210 | from the valid session where Honey bee is already matched and five attempts have failed, a drop of any other card, wherever it lands, raises the answer popup |
| `Levels.Lvl1CompleteFinishes` | src/game/scenes/lvl1.jsx:188-191 | after level 1's success signal, every card that could match is hidden |
| `Levels.Lvl1Reentry` | src/game/scenes/lvl1.jsx:5-13 | on a second visit to level 1 Honey bee is visible again while the attempt count is kept: a close Honey bee drop raises the success popup again, and after five earlier misses any other drop raises the answer popup at once |
| `Levels.Lvl1Session` | src/game/scenes/lvl1.jsx:11 | during one visit from the constructor's state, level 1 raises the success popup exactly once if Honey bee ends up hidden and never otherwise, its attempt count equals its number of misses, and only card 4 is ever hidden |
| `Levels.Lvl9Answers` | src/game/scenes/lvl9.jsx:178-181 | the accepted names are exactly cards 1, 2 and 4; Wasp, Moth, Flies, Butterfly, Bumblebee and ANTS are not accepted |
| `Levels.Lvl9MatchIff` | src/game/scenes/lvl9.jsx:249-251 | on level 9 a drop matches iff the card's name is an accepted answer and it lands strictly within 50 of the target; cards 0, 3, 5, 6, 7 and 8 never match |
| `Levels.Lvl9MatchEffect` | src/game/scenes/lvl9.jsx:268-277 | a level 9 match hides the card, adds its name to the recorded matches (a name already recorded adds nothing), keeps the attempt count, rests the card on the target, and raises the congratulations popup iff the recorded matches reach three |
| `Levels.Lvl9MissEffect` | src/game/scenes/lvl9.jsx:281-285 | a level 9 miss adds one attempt, keeps the matches and hidden cards, returns the card to its drag start, and raises the answer popup iff at least 6 attempts have failed and fewer than 3 answers are matched |
| `Levels.Lvl9MatchesBounded` | src/game/scenes/lvl9.jsx:13 | in every valid level 9 session the recorded matches are a subset of {Honey_bee, Solitary_bee, Stingless_bees}, so there are at most three |
| `Levels.CardNamesDistinct` | src/game/scenes/lvl9.jsx:178-181 | the nine card names are pairwise distinct |
| `Levels.Lvl9FullIsAllAnswers` | src/game/scenes/lvl9.jsx:274 | three recorded matches are exactly the three answers |
| `Levels.Lvl9FullMeansAllHidden` | src/game/scenes/lvl9.jsx:270-271 | when three matches are recorded, all three answer cards are hidden |
| `Levels.Lvl9CompleteFinishes` | src/game/scenes/lvl9.jsx:273-277 | after level 9's congratulations signal, nothing is left that could match |
| `Levels.Lvl9QuietAfterCompletion` | src/game/scenes/lvl9.jsx:283 | once all three answers are matched, every later drop is a plain miss: no match, no success popup and no answer popup |
| `Levels.Lvl9AllHiddenIsFull` | src/game/scenes/lvl9.jsx:268-275 | in a valid level 9 session with every answer card hidden, all three answers are recorded |
| `Levels.Lvl9FinishingMatchCompletes` | src/game/scenes/lvl9.jsx:273-277 | the match that hides the last answer card raises the congratulations popup |
| `Levels.Lvl9Reentry` | src/game/scenes/lvl9.jsx:5-15 | on a return to a finished level 9 the cards are visible again but the three names stay recorded: the session breaks the invariant, an answer card dropped close raises the congratulations popup again, and the answer popup can no longer fire |
| `Levels.Lvl9Session` | src/game/scenes/lvl9.jsx:11-14 | during one visit from the constructor's state, level 9 raises the congratulations popup exactly once if all three answers end up recorded and never otherwise, its attempt count equals its number of misses, and its matches stay within the three answers |

## Left out

- Asset loading (`preload`) is not modelled: it only loads images.
- Popup drawing and closing (`displayPopup`, `displayQuitPopup`, including the
  1500 ms auto-dismiss timer) are not modelled. The model keeps only the
  signal that a popup is raised.
- The control buttons and the arrows (`createControlButtons`, `addRightArrow`,
  `addLeftArrow`) and scene navigation (`scene.start`, `scene.stop`) are not
  modelled: they are view glue.
- `onDragStart`, `onDrag` and the gsap tweens in `onDragEnd` are not
  modelled. They are timed cosmetic animation. The card's position at drag
  end and its drag-start coordinates are inputs. The model records where the
  card comes to rest, not the animation.
- `playCelebrationStarEffect` and `playWinBombEffect` are not modelled: they
  use floating-point trigonometry, random durations and particles. Their
  firing is part of the `Complete` outcome.
- The `window.innerHeight < 900` test is not evaluated: it reads browser
  state. Its result is the `compact` parameter of `Levels.Lvl9`. The card
  sizes and font sizes that depend on it are cosmetic and are left out.
- The canvas width comes from `window.innerWidth` and is a parameter.
- JavaScript numbers are doubles. The model uses exact reals, so rounding at
  the threshold boundary is not modelled.
- The unused fields `matchedCount`, `totalPairs` and `popups` are not
  modelled. The level 1 `isCorrect === false` branch is not modelled either,
  because it is never reached: `handleMatch` is only called with `true`.
- src/game/scenes/MatchingGameScene.jsx (start page), src/game/scenes/network.jsx
  (camera zoom and pan, including its clamp of the zoom to [1, 3]) and
  src/main.jsx (game configuration) are not modelled: they are view and
  framework code with no matching logic.
- A game made of several visits is not modelled as one trace. The model
  covers one visit (`Controller.Run`) and the passage between visits
  (`Controller.Reenter`). `Levels.Lvl1Session`, `Levels.Lvl9Session` and
  `Controller.CompleteAtMostOnce` therefore promise "at most once" per visit
  only. Across visits the success popup can fire again (see
  `Levels.Lvl1Reentry` and `Levels.Lvl9Reentry`).
- `Labels.ReplaceFirst`: a replacement string containing `$` patterns (`$&`,
  `$$`, `` $` ``, `$'`) is not modelled, because JavaScript expands them. The
  scenes' replacements `''` and `' '` contain none.
- `Geometry.SqDist` states only that the squared distance is non-negative
  and zero for equal points. The link to Phaser's distance is stated by
  `Geometry.CloseEnoughIffDistanceBelow`.

=== FILE: controller.dfy ===
/** The level match controller: the drag-end decision shared by the level
    scenes, written once and parameterised by the level's configuration. */
module Controller {
  import opened Wrappers
  import opened Geometry

  /** A draggable option card: its texture key (which the multi-answer level
      also stores as the card's `name`), the `number` the single-answer level
      gives it, and where the layout puts it. */
  datatype Card = Card(key: string, number: Option<int>, home: Point)

  /** A fixed drop zone; `number` is unset on levels that do not compare numbers. */
  datatype Target = Target(pos: Point, number: Option<int>)

  /** How a level decides that a card belongs on a target. */
  datatype Rule =
      /** The card's number equals the target's; one match ends the level. */
    | ByNumber
      /** The card's name is one of the accepted answers; the level ends once
          every answer has been matched. */
    | ByName(answers: seq<string>)

  datatype Level = Level(
    targets: seq<Target>,
    cards: seq<Card>,
    rule: Rule,
    maxIncorrectAttempts: nat)

  /** Per-scene progress. `hidden` holds indices into the level's cards. */
  datatype Session = Session(
    incorrectAttempts: nat,
    correctMatches: set<string>,
    hidden: set<nat>)

  /** What a drag-end signals to the view layer.
      Match: card accepted, no popup yet. Complete: card accepted and the
      success popup fires. Fail: card sent back. Reveal: card sent back and
      the answer popup fires. */
  datatype Outcome = Match | Complete | Fail | Reveal {
    predicate Matched() { Match? || Complete? }
  }

  /** The session after the drop, the signal, and where the card comes to rest. */
  datatype Step = Step(session: Session, outcome: Outcome, rest: Point)

  /** One drag gesture ending: which card, where it was released, and where
      the drag began. */
  datatype Drop = Drop(card: nat, at: Point, dragStart: Point)

  datatype Trace = Trace(session: Session, outcomes: seq<Outcome>)

  /** The state a scene constructor sets up. */
  function Init(): Session
  {
    Session(0, {}, {})
  }

  predicate Accepts(rule: Rule, card: Card, target: Target)
  {
    match rule
    case ByNumber => target.number == card.number
    case ByName(answers) => card.key in answers
  }

  /** The predicate handed to `rectangleCards.find`. */
  predicate IsMatch(rule: Rule, card: Card, at: Point, target: Target)
  {
    CloseEnough(at, target.pos) && Accepts(rule, card, target)
  }

  /** `Array.prototype.find` over the targets: the first one the card matches. */
  function FindTarget(rule: Rule, card: Card, at: Point, targets: seq<Target>): (r: Option<nat>)
    ensures r.Some? ==>
      && r.value < |targets|
      && IsMatch(rule, card, at, targets[r.value])
      && forall j :: 0 <= j < r.value ==> !IsMatch(rule, card, at, targets[j])
    ensures r.None? ==> forall j :: 0 <= j < |targets| ==> !IsMatch(rule, card, at, targets[j])
  {
    if |targets| == 0 then None
    else if IsMatch(rule, card, at, targets[0]) then Some(0)
    else match FindTarget(rule, card, at, targets[1..])
      case None => None
      case Some(k) => Some(k + 1)
  }

  /** The success popup's guard, read after the matched card has been recorded. */
  predicate Completed(rule: Rule, s: Session)
  {
    match rule
    case ByNumber => true
    case ByName(answers) => |s.correctMatches| == |answers|
  }

  /** The answer popup's guard, read after the attempt has been counted. */
  predicate RevealDue(level: Level, s: Session)
  {
    && s.incorrectAttempts >= level.maxIncorrectAttempts
    && match level.rule
       case ByNumber => true
       case ByName(answers) => |s.correctMatches| < |answers|
  }

  /** The drag-end handler for card `i` released at `at`. */
  function OnDragEnd(level: Level, s: Session, i: nat, at: Point, dragStart: Point): (r: Step)
    requires i < |level.cards|
    ensures r.outcome.Matched() <==>
      exists t :: 0 <= t < |level.targets| && IsMatch(level.rule, level.cards[i], at, level.targets[t])
    ensures r.outcome.Matched() ==>
      && r.session.incorrectAttempts == s.incorrectAttempts
      && r.session.hidden == s.hidden + {i}
      && r.session.correctMatches ==
           (if level.rule.ByName? then s.correctMatches + {level.cards[i].key} else s.correctMatches)
      && (exists t :: 0 <= t < |level.targets| && IsMatch(level.rule, level.cards[i], at, level.targets[t])
                      && r.rest == level.targets[t].pos
                      && forall u :: 0 <= u < t ==> !IsMatch(level.rule, level.cards[i], at, level.targets[u]))
      && (r.outcome.Complete? <==> Completed(level.rule, r.session))
    ensures !r.outcome.Matched() ==>
      && r.session == s.(incorrectAttempts := s.incorrectAttempts + 1)
      && r.rest == dragStart
      && (r.outcome.Reveal? <==> RevealDue(level, r.session))
  {
    var card := level.cards[i];
    match FindTarget(level.rule, card, at, level.targets)
    case Some(t) =>
      var matches := if level.rule.ByName? then s.correctMatches + {card.key} else s.correctMatches;
      var s' := s.(hidden := s.hidden + {i}, correctMatches := matches);
      Step(s', if Completed(level.rule, s') then Complete else Match, level.targets[t].pos)
    case None =>
      var s' := s.(incorrectAttempts := s.incorrectAttempts + 1);
      Step(s', if RevealDue(level, s') then Reveal else Fail, dragStart)
  }

  /** The host input system only reports drag-ends for visible cards of the
      scene: a hidden card never produces another drop. */
  function Deliver(level: Level, s: Session, d: Drop): Option<Step>
  {
    if d.card < |level.cards| && d.card !in s.hidden
    then Some(OnDragEnd(level, s, d.card, d.at, d.dragStart))
    else None
  }

  /** `scene.start` on a scene that has run before: `create()` builds a fresh
      row of visible cards, but the fields set by the constructor, which runs
      only once per game, keep their values. */
  function Reenter(s: Session): Session
  {
    s.(hidden := {})
  }

  /** Number of failed drops (with or without the answer popup). */
  function Misses(os: seq<Outcome>): nat
  {
    if |os| == 0 then 0 else (if os[0].Matched() then 0 else 1) + Misses(os[1..])
  }

  /** Number of accepted drops (with or without the success popup). */
  function Matches(os: seq<Outcome>): nat
  {
    if |os| == 0 then 0 else (if os[0].Matched() then 1 else 0) + Matches(os[1..])
  }

  function Count(os: seq<Outcome>, o: Outcome): nat
  {
    if |os| == 0 then 0 else (if os[0] == o then 1 else 0) + Count(os[1..], o)
  }

  /** A scene instance processing a sequence of drops. */
  function Run(level: Level, s: Session, drops: seq<Drop>): (r: Trace)
    ensures r.session.incorrectAttempts == s.incorrectAttempts + Misses(r.outcomes)
    ensures s.hidden <= r.session.hidden
    ensures s.correctMatches <= r.session.correctMatches
    ensures |r.outcomes| <= |drops|
    decreases |drops|
  {
    if |drops| == 0 then Trace(s, [])
    else match Deliver(level, s, drops[0])
      case None => Run(level, s, drops[1..])
      case Some(st) =>
        var t := Run(level, st.session, drops[1..]);
        assert ([st.outcome] + t.outcomes)[1..] == t.outcomes;
        Trace(t.session, [st.outcome] + t.outcomes)
  }

  /** Every accepted drop retires a card that was still visible: over any
      drop sequence the hidden set grows by exactly the number of matches. */
  lemma {:induction false} RunHidesOneCardPerMatch(level: Level, s: Session, drops: seq<Drop>)
    ensures |Run(level, s, drops).session.hidden| == |s.hidden| + Matches(Run(level, s, drops).outcomes)
    decreases |drops|
  {
    if |drops| > 0 {
      match Deliver(level, s, drops[0])
      case None => RunHidesOneCardPerMatch(level, s, drops[1..]);
      case Some(st) =>
        RunHidesOneCardPerMatch(level, st.session, drops[1..]);
        var t := Run(level, st.session, drops[1..]);
        assert ([st.outcome] + t.outcomes)[1..] == t.outcomes;
        if st.outcome.Matched() {
          assert |st.session.hidden| == |s.hidden| + 1;
        }
    }
  }

  /** Card `i` is accepted by some target, from a suitable position. */
  ghost predicate Matchable(level: Level, i: nat)
    requires i < |level.cards|
  {
    exists t :: 0 <= t < |level.targets| && Accepts(level.rule, level.cards[i], level.targets[t])
  }

  /** What every reachable session satisfies: only matchable cards are hidden,
      and the recorded matches are exactly the names of the hidden cards
      (none are recorded by the single-answer rule). */
  ghost predicate Valid(level: Level, s: Session)
  {
    && (forall i :: i in s.hidden ==> i < |level.cards| && Matchable(level, i))
    && (match level.rule
        case ByNumber => s.correctMatches == {}
        case ByName(_) =>
          s.correctMatches == set i | i in s.hidden && i < |level.cards| :: level.cards[i].key)
  }

  /** Every card that could ever match has been matched. */
  ghost predicate AllMatchableHidden(level: Level, s: Session)
  {
    forall i :: 0 <= i < |level.cards| && Matchable(level, i) ==> i in s.hidden
  }

  lemma InitValid(level: Level)
    ensures Valid(level, Init())
  {
  }

  lemma StepPreservesValid(level: Level, s: Session, i: nat, at: Point, dragStart: Point)
    requires Valid(level, s) && i < |level.cards|
    ensures Valid(level, OnDragEnd(level, s, i, at, dragStart).session)
  {
  }

  lemma {:induction false} RunPreservesValid(level: Level, s: Session, drops: seq<Drop>)
    requires Valid(level, s)
    ensures Valid(level, Run(level, s, drops).session)
    decreases |drops|
  {
    if |drops| > 0 {
      match Deliver(level, s, drops[0])
      case None => RunPreservesValid(level, s, drops[1..]);
      case Some(st) =>
        StepPreservesValid(level, s, drops[0].card, drops[0].at, drops[0].dragStart);
        RunPreservesValid(level, st.session, drops[1..]);
    }
  }

  /** A card no target accepts never matches, wherever it is dropped. */
  lemma UnmatchableNeverMatches(level: Level, s: Session, i: nat, at: Point, dragStart: Point)
    requires i < |level.cards| && !Matchable(level, i)
    ensures !OnDragEnd(level, s, i, at, dragStart).outcome.Matched()
    ensures OnDragEnd(level, s, i, at, dragStart).rest == dragStart
  {
  }

  /** A drop not strictly within the threshold of any target is a miss,
      whatever the card. */
  lemma FarDropIsMiss(level: Level, s: Session, i: nat, at: Point, dragStart: Point)
    requires i < |level.cards|
    requires forall t :: 0 <= t < |level.targets| ==> SqDist(at, level.targets[t].pos) >= Threshold * Threshold
    ensures !OnDragEnd(level, s, i, at, dragStart).outcome.Matched()
    ensures OnDragEnd(level, s, i, at, dragStart).session.incorrectAttempts == s.incorrectAttempts + 1
  {
  }

  /** The recorded matches only ever name accepted answers, so there are at
      most as many of them as answers. */
  lemma MatchesWithinAnswers(level: Level, s: Session)
    requires Valid(level, s) && level.rule.ByName?
    ensures s.correctMatches <= set a | a in level.rule.answers
    ensures |s.correctMatches| <= |level.rule.answers|
  {
    var answers := set a | a in level.rule.answers;
    forall m | m in s.correctMatches
      ensures m in answers
    {
      var j :| j in s.hidden && j < |level.cards| && level.cards[j].key == m;
      assert Matchable(level, j);
    }
    SubsetCard(s.correctMatches, answers);
    SeqSetCard(level.rule.answers);
  }

  lemma SubsetCard<T>(a: set<T>, b: set<T>)
    requires a <= b
    ensures |a| <= |b|
  {
    assert b == a + (b - a);
  }

  lemma {:induction false} SeqSetCard<T>(xs: seq<T>)
    ensures |set x | x in xs| <= |xs|
  {
    if |xs| > 0 {
      SeqSetCard(xs[1..]);
      assert (set x | x in xs) == {xs[0]} + (set x | x in xs[1..]);
    }
  }

  /** Once every matchable card is hidden, every further drop is a miss. */
  lemma {:induction false} FinishedRunOnlyMisses(level: Level, s: Session, drops: seq<Drop>)
    requires AllMatchableHidden(level, s)
    ensures forall k :: 0 <= k < |Run(level, s, drops).outcomes| ==> !Run(level, s, drops).outcomes[k].Matched()
    decreases |drops|
  {
    if |drops| > 0 {
      match Deliver(level, s, drops[0])
      case None => FinishedRunOnlyMisses(level, s, drops[1..]);
      case Some(st) =>
        var d := drops[0];
        assert !Matchable(level, d.card);
        UnmatchableNeverMatches(level, s, d.card, d.at, d.dragStart);
        FinishedRunOnlyMisses(level, st.session, drops[1..]);
    }
  }

  /** The level's success signal leaves nothing left to match. */
  ghost predicate CompleteFinishes(level: Level)
  {
    forall s: Session, i: nat, at: Point, dragStart: Point
      | Valid(level, s) && i < |level.cards| && i !in s.hidden
      :: OnDragEnd(level, s, i, at, dragStart).outcome.Complete? ==>
           AllMatchableHidden(level, OnDragEnd(level, s, i, at, dragStart).session)
  }

  /** The level raises its success signal on every match that leaves nothing
      to match. */
  ghost predicate FinishingMatchCompletes(level: Level)
  {
    forall s: Session, i: nat, at: Point, dragStart: Point
      | Valid(level, s) && i < |level.cards| && i !in s.hidden
      :: OnDragEnd(level, s, i, at, dragStart).outcome.Matched()
         && AllMatchableHidden(level, OnDragEnd(level, s, i, at, dragStart).session)
         ==> OnDragEnd(level, s, i, at, dragStart).outcome.Complete?
  }

  /** A run that starts with a card left to match and ends with every
      matchable card hidden has emitted the success signal. */
  lemma {:induction false} CompleteWhenFinished(level: Level, s: Session, drops: seq<Drop>)
    requires Valid(level, s) && FinishingMatchCompletes(level)
    ensures !AllMatchableHidden(level, s) && AllMatchableHidden(level, Run(level, s, drops).session) ==>
      Count(Run(level, s, drops).outcomes, Complete) >= 1
    decreases |drops|
  {
    if |drops| > 0 {
      match Deliver(level, s, drops[0])
      case None => CompleteWhenFinished(level, s, drops[1..]);
      case Some(st) =>
        var d := drops[0];
        assert st == OnDragEnd(level, s, d.card, d.at, d.dragStart);
        StepPreservesValid(level, s, d.card, d.at, d.dragStart);
        CompleteWhenFinished(level, st.session, drops[1..]);
        var os := Run(level, s, drops).outcomes;
        assert os == [st.outcome] + Run(level, st.session, drops[1..]).outcomes;
        assert os[1..] == Run(level, st.session, drops[1..]).outcomes;
        if !st.outcome.Matched() {
          assert st.session.hidden == s.hidden;
        }
    }
  }

  /** Every success signal is a match. */
  lemma {:induction false} CompleteCountWithinMatches(os: seq<Outcome>)
    ensures Count(os, Complete) <= Matches(os)
  {
    if |os| > 0 {
      CompleteCountWithinMatches(os[1..]);
    }
  }

  /** Under the name rule a run that emitted the success signal ends with at
      least as many recorded matches as there are answers. */
  lemma {:induction false} CompleteMeansAllAnswers(level: Level, s: Session, drops: seq<Drop>)
    requires level.rule.ByName?
    ensures Count(Run(level, s, drops).outcomes, Complete) >= 1 ==>
      |Run(level, s, drops).session.correctMatches| >= |level.rule.answers|
    decreases |drops|
  {
    if |drops| > 0 {
      match Deliver(level, s, drops[0])
      case None => CompleteMeansAllAnswers(level, s, drops[1..]);
      case Some(st) =>
        CompleteMeansAllAnswers(level, st.session, drops[1..]);
        var t := Run(level, st.session, drops[1..]);
        var os := Run(level, s, drops).outcomes;
        assert os == [st.outcome] + t.outcomes;
        assert os[1..] == t.outcomes;
        if st.outcome == Complete {
          SubsetCard(st.session.correctMatches, t.session.correctMatches);
        }
    }
  }

  lemma {:induction false} NoMatchedCount(os: seq<Outcome>)
    requires forall k :: 0 <= k < |os| ==> !os[k].Matched()
    ensures Count(os, Complete) == 0
  {
    if |os| > 0 {
      NoMatchedCount(os[1..]);
    }
  }

  /** On a level whose success signal finishes it, a scene emits that signal
      at most once, and never again once finished. */
  lemma {:induction false} CompleteAtMostOnce(level: Level, s: Session, drops: seq<Drop>)
    requires Valid(level, s) && CompleteFinishes(level)
    ensures Count(Run(level, s, drops).outcomes, Complete) <= 1
    ensures AllMatchableHidden(level, s) ==> Count(Run(level, s, drops).outcomes, Complete) == 0
    decreases |drops|
  {
    if AllMatchableHidden(level, s) {
      FinishedRunOnlyMisses(level, s, drops);
      NoMatchedCount(Run(level, s, drops).outcomes);
    } else if |drops| > 0 {
      match Deliver(level, s, drops[0])
      case None => CompleteAtMostOnce(level, s, drops[1..]);
      case Some(st) =>
        var d := drops[0];
        StepPreservesValid(level, s, d.card, d.at, d.dragStart);
        CompleteAtMostOnce(level, st.session, drops[1..]);
        var os := Run(level, s, drops).outcomes;
        assert os == [st.outcome] + Run(level, st.session, drops[1..]).outcomes;
        assert os[1..] == Run(level, st.session, drops[1..]).outcomes;
    }
  }
}

=== FILE: geometry.dfy ===
/** Canvas points and the proximity test used when a card is dropped. */
module Geometry {

  /** A point on the game canvas, in exact real coordinates. */
  datatype Point = Point(x: real, y: real)

  /** A dropped card lands on a target when it is strictly closer than this. */
  const Threshold: real := 50.0

  /** Square of the Euclidean distance between two points. */
  function SqDist(p: Point, q: Point): (d: real)
    ensures d >= 0.0
    ensures p == q ==> d == 0.0
  {
    var dx := p.x - q.x;
    var dy := p.y - q.y;
    dx * dx + dy * dy
  }

  /** The drop test: the distance is below the threshold, compared on squares
      so that no square root is needed. */
  predicate CloseEnough(p: Point, q: Point)
  {
    SqDist(p, q) < Threshold * Threshold
  }

  /** Comparing squares is the same test as comparing the distance itself:
      for the non-negative `d` whose square is the squared distance,
      the points are close enough exactly when `d < 50`. */
  lemma CloseEnoughIffDistanceBelow(p: Point, q: Point, d: real)
    requires 0.0 <= d && d * d == SqDist(p, q)
    ensures CloseEnough(p, q) <==> d < Threshold
  {
    if d < Threshold {
      assert d * d <= d * Threshold;
      assert d * Threshold < Threshold * Threshold;
    } else {
      assert d * d >= d * Threshold;
      assert d * Threshold >= Threshold * Threshold;
    }
  }
}

=== FILE: labels.dfy ===
/** Card captions: `String.prototype.replace` with a one-character string
    pattern and a replacement containing no `$`, which rewrites the first
    occurrence only. */
module Labels {
  import opened Wrappers

  /** Position of the first occurrence of `c` in `s`, if any. */
  function FirstIndex(s: string, c: char): (r: Option<nat>)
    ensures r.None? <==> c !in s
    ensures r.Some? ==> r.value < |s| && s[r.value] == c && c !in s[..r.value]
  {
    if |s| == 0 then None
    else if s[0] == c then Some(0)
    else match FirstIndex(s[1..], c)
      case None => None
      case Some(k) =>
        assert s[..k + 1] == [s[0]] + s[1..][..k];
        Some(k + 1)
  }

  /** `s.replace(c, rep)` for a `rep` without `$`: the first `c` becomes
      `rep`, everything else is kept. */
  function ReplaceFirst(s: string, c: char, rep: string): (r: string)
    ensures c !in s ==> r == s
    ensures c in s ==>
      var k := FirstIndex(s, c).value;
      r == s[..k] + rep + s[k + 1..]
  {
    if |s| == 0 then s
    else if s[0] == c then rep + s[1..]
    else
      var tail := ReplaceFirst(s[1..], c, rep);
      ReplaceFirstStep(s, c, rep, tail);
      [s[0]] + tail
  }

  /** The inductive step of `ReplaceFirst`: a leading character other than `c`
      shifts the first index by one and is kept in front. */
  lemma ReplaceFirstStep(s: string, c: char, rep: string, tail: string)
    requires |s| > 0 && s[0] != c
    requires c !in s[1..] ==> tail == s[1..]
    requires c in s[1..] ==>
      var k := FirstIndex(s[1..], c).value;
      tail == s[1..][..k] + rep + s[1..][k + 1..]
    ensures c !in s ==> [s[0]] + tail == s
    ensures c in s ==>
      var k := FirstIndex(s, c).value;
      [s[0]] + tail == s[..k] + rep + s[k + 1..]
  {
  }

  /** A name holding exactly one `c`, between `a` and `b`, is captioned
      `a + rep + b`. */
  lemma ReplaceSole(s: string, c: char, a: string, b: string, rep: string)
    requires s == a + [c] + b && c !in a && c !in b
    ensures ReplaceFirst(s, c, rep) == a + rep + b
  {
  }
}

=== FILE: levels.dfy ===
/** The two level scenes as configurations of the generic controller: the
    single-answer level 1 and the three-answer level 9. */
module Levels {
  import opened Wrappers
  import opened Geometry
  import opened Labels
  import opened Controller

  const TotalCircles: nat := 9
  const MaxIncorrectAttempts: nat := 6

  /** Texture keys of the nine option cards, left to right. */
  const CardNames: seq<string> :=
    ["Wasp", "Stingless_bees", "Solitary_bee", "Moth", "Honey_bee",
     "Flies", "Butterfly", "Bumblebee", "ANTS"]

  /** The accepted answers of level 9. */
  const CorrectAnswers: seq<string> := ["Honey_bee", "Solitary_bee", "Stingless_bees"]

  /** The target card's `number` on level 1. */
  const TargetNumber: int := 5

  /** Horizontal centre of option card `i`: the canvas width split into
      `TotalCircles + 1` equal gaps. */
  function CardX(width: real, i: nat): real
  {
    (i + 1) as real * (width / (TotalCircles + 1) as real)
  }

  /** The row of option cards. Level 1 numbers them from 1; level 9 leaves
      `number` unset and names each card after its texture. */
  function CircleCards(width: real, row: real, numbered: bool): (cards: seq<Card>)
    ensures |cards| == TotalCircles
  {
    seq(TotalCircles, i requires 0 <= i < TotalCircles =>
      Card(CardNames[i], if numbered then Some(i + 1) else None, Point(CardX(width, i), row)))
  }

  /** Level 1: one target at (width/2, 190) numbered 5, cards on row y = 500. */
  function Lvl1(width: real): Level
  {
    Level([Target(Point(width / 2.0, 190.0), Some(TargetNumber))],
          CircleCards(width, 500.0, true), ByNumber, MaxIncorrectAttempts)
  }

  /** Level 9. `compact` is the scene's `window.innerHeight < 900` test, which
      moves the target to y = 180 and the cards to y = 500 (else 300 and 800). */
  function Lvl9(width: real, compact: bool): Level
  {
    Level([Target(Point(width / 2.0, if compact then 180.0 else 300.0), None)],
          CircleCards(width, if compact then 500.0 else 800.0, false),
          ByName(CorrectAnswers), MaxIncorrectAttempts)
  }

  /** Level 1's caption under a card: the first underscore is dropped. */
  function Lvl1Label(name: string): string { ReplaceFirst(name, '_', "") }

  /** Level 9's caption under a card: the first underscore becomes a space. */
  function Lvl9Label(name: string): string { ReplaceFirst(name, '_', " ") }

  // ---------------------------------------------------------------------------
  // Layout and captions

  /** On a canvas of positive width the nine cards sit strictly inside it,
      left to right, at (i+1)/10 of the width. */
  lemma CardLayout(width: real, row: real, numbered: bool)
    requires width > 0.0
    ensures forall i :: 0 <= i < TotalCircles ==>
      && CircleCards(width, row, numbered)[i].home == Point((i + 1) as real * width / 10.0, row)
      && 0.0 < CircleCards(width, row, numbered)[i].home.x < width
    ensures forall i, j :: 0 <= i < j < TotalCircles ==>
      CircleCards(width, row, numbered)[i].home.x < CircleCards(width, row, numbered)[j].home.x
  {
    var cards := CircleCards(width, row, numbered);
    forall i | 0 <= i < TotalCircles
      ensures cards[i].home == Point((i + 1) as real * width / 10.0, row)
      ensures 0.0 < cards[i].home.x < width
    {
      assert cards[i].home.x == (i + 1) as real * (width / 10.0);
    }
    forall i, j | 0 <= i < j < TotalCircles
      ensures cards[i].home.x < cards[j].home.x
    {
      assert cards[j].home.x - cards[i].home.x == (j - i) as real * (width / 10.0);
    }
  }

  /** Three card names hold one underscore, splitting them into two words;
      the other six hold none. */
  lemma CardNameShapes(i: nat)
    requires i < TotalCircles
    ensures i == 1 ==> CardNames[i] == "Stingless" + ['_'] + "bees"
    ensures i == 2 ==> CardNames[i] == "Solitary" + ['_'] + "bee"
    ensures i == 4 ==> CardNames[i] == "Honey" + ['_'] + "bee"
    ensures i !in {1, 2, 4} ==> '_' !in CardNames[i]
    ensures CardNames[4] == "Honey_bee"
  {
  }

  /** Captions: a name `a_b` reads "ab" on level 1 and "a b" on level 9, and a
      name without an underscore is its own caption on both levels. */
  lemma Captions(name: string, a: string, b: string)
    ensures name == a + ['_'] + b && '_' !in a && '_' !in b ==>
      Lvl1Label(name) == a + b && Lvl9Label(name) == a + " " + b
    ensures '_' !in name ==> Lvl1Label(name) == name && Lvl9Label(name) == name
  {
  }

  // ---------------------------------------------------------------------------
  // Level 1

  /** On level 1 a drop matches exactly when it is the Honey bee card (index 4)
      released strictly within the threshold of the target. */
  lemma Lvl1MatchIff(width: real, s: Session, i: nat, at: Point, dragStart: Point)
    requires i < TotalCircles
    ensures OnDragEnd(Lvl1(width), s, i, at, dragStart).outcome.Matched() <==>
      i == 4 && CloseEnough(at, Point(width / 2.0, 190.0))
  {
  }

  /** Level 1: a match hides the card, sends it to the target, leaves the
      attempt count alone and always raises the success popup. */
  lemma Lvl1MatchEffect(width: real, s: Session, i: nat, at: Point, dragStart: Point)
    requires i < TotalCircles
    requires OnDragEnd(Lvl1(width), s, i, at, dragStart).outcome.Matched()
    ensures var r := OnDragEnd(Lvl1(width), s, i, at, dragStart);
      && r.outcome == Complete
      && r.session == s.(hidden := s.hidden + {4})
      && r.rest == Point(width / 2.0, 190.0)
  {
  }

  /** Level 1: a miss counts one attempt and raises the answer popup exactly
      from the sixth miss on, whether or not Honey bee was already matched. */
  lemma Lvl1RevealUnguarded(width: real, s: Session, i: nat, at: Point, dragStart: Point)
    requires i < TotalCircles
    requires !OnDragEnd(Lvl1(width), s, i, at, dragStart).outcome.Matched()
    ensures var r := OnDragEnd(Lvl1(width), s, i, at, dragStart);
      && r.session.incorrectAttempts == s.incorrectAttempts + 1
      && r.session.hidden == s.hidden
      && r.rest == dragStart
      && (r.outcome == Reveal <==> s.incorrectAttempts + 1 >= 6)
  {
  }

  /** Level 1 reveals the answer even after it was found: once Honey bee is
      hidden and five attempts have failed, the next drop of any other card,
      wherever it lands, is a miss that shows the popup. */
  lemma Lvl1RevealsAfterCompletion(width: real, i: nat, at: Point, dragStart: Point)
    requires i < TotalCircles && i != 4
    ensures var s := Session(5, {}, {4});
      && Valid(Lvl1(width), s)
      && OnDragEnd(Lvl1(width), s, i, at, dragStart).outcome == Reveal
  {
    var level := Lvl1(width);
    var s := Session(5, {}, {4});
    assert Accepts(level.rule, level.cards[4], level.targets[0]);
    assert Matchable(level, 4);
    Lvl1MatchIff(width, s, i, at, dragStart);
  }

  lemma Lvl1CompleteFinishes(width: real)
    ensures CompleteFinishes(Lvl1(width))
  {
  }

  /** On level 1 every match raises the success popup. */
  lemma Lvl1FinishingMatchCompletes(width: real)
    ensures FinishingMatchCompletes(Lvl1(width))
  {
  }

  /** Returning to level 1 brings Honey bee back but keeps the attempt count:
      the success popup can fire again, and after five misses on earlier
      visits the first miss of the new visit shows the answer. */
  lemma Lvl1Reentry(width: real, s: Session, i: nat, at: Point, dragStart: Point)
    requires Valid(Lvl1(width), s) && i < TotalCircles
    ensures Valid(Lvl1(width), Reenter(s))
    ensures Deliver(Lvl1(width), Reenter(s), Drop(i, at, dragStart)).Some?
    ensures i == 4 && CloseEnough(at, Point(width / 2.0, 190.0)) ==>
      Deliver(Lvl1(width), Reenter(s), Drop(i, at, dragStart)).value.outcome == Complete
    ensures s.incorrectAttempts >= 5 && !(i == 4 && CloseEnough(at, Point(width / 2.0, 190.0))) ==>
      Deliver(Lvl1(width), Reenter(s), Drop(i, at, dragStart)).value.outcome == Reveal
  {
  }

  /** From the constructor's state, one visit to level 1 raises its success
      popup exactly once if Honey bee ends up hidden and never otherwise. */
  lemma Lvl1Session(width: real, drops: seq<Drop>)
    ensures Count(Run(Lvl1(width), Init(), drops).outcomes, Complete) <= 1
    ensures 4 in Run(Lvl1(width), Init(), drops).session.hidden ==>
      Count(Run(Lvl1(width), Init(), drops).outcomes, Complete) == 1
    ensures 4 !in Run(Lvl1(width), Init(), drops).session.hidden ==>
      Count(Run(Lvl1(width), Init(), drops).outcomes, Complete) == 0
    ensures Run(Lvl1(width), Init(), drops).session.incorrectAttempts
              == Misses(Run(Lvl1(width), Init(), drops).outcomes)
    ensures Run(Lvl1(width), Init(), drops).session.hidden <= {4}
  {
    var level := Lvl1(width);
    InitValid(level);
    Lvl1CompleteFinishes(width);
    CompleteAtMostOnce(level, Init(), drops);
    RunPreservesValid(level, Init(), drops);
    Lvl1FinishingMatchCompletes(width);
    CompleteWhenFinished(level, Init(), drops);
    assert Accepts(level.rule, level.cards[4], level.targets[0]);
    assert Matchable(level, 4);
    var h := Run(level, Init(), drops).session.hidden;
    forall j | j in h
      ensures j == 4
    {
      assert j < |level.cards| && Matchable(level, j);
      assert level.cards[j].number == Some(j + 1);
    }
    if 4 in h {
      forall j | 0 <= j < |level.cards| && Matchable(level, j)
        ensures j in h
      {
        assert level.cards[j].number == Some(j + 1);
      }
    } else {
      assert h == {};
      RunHidesOneCardPerMatch(level, Init(), drops);
      CompleteCountWithinMatches(Run(level, Init(), drops).outcomes);
    }
  }

  // ---------------------------------------------------------------------------
  // Level 9

  /** The level 9 cards whose names are accepted answers are Stingless bees,
      Solitary bee and Honey bee; the other six are not. */
  lemma Lvl9Answers(i: nat)
    requires i < TotalCircles
    ensures CardNames[i] in CorrectAnswers <==> i in {1, 2, 4}
  {
  }

  /** On level 9 a drop matches exactly when the card's name is an accepted
      answer and it is released strictly within the threshold of the target. */
  lemma Lvl9MatchIff(width: real, compact: bool, s: Session, i: nat, at: Point, dragStart: Point)
    requires i < TotalCircles
    ensures OnDragEnd(Lvl9(width, compact), s, i, at, dragStart).outcome.Matched() <==>
      CardNames[i] in CorrectAnswers && CloseEnough(at, Lvl9(width, compact).targets[0].pos)
    ensures i in {0, 3, 5, 6, 7, 8} ==> !OnDragEnd(Lvl9(width, compact), s, i, at, dragStart).outcome.Matched()
  {
  }

  /** Level 9: a match hides the card, records its name (a name already
      recorded leaves the set as it was), keeps the attempt count, and raises
      the success popup exactly when all three answers are recorded. */
  lemma Lvl9MatchEffect(width: real, compact: bool, s: Session, i: nat, at: Point, dragStart: Point)
    requires i < TotalCircles
    requires OnDragEnd(Lvl9(width, compact), s, i, at, dragStart).outcome.Matched()
    ensures var r := OnDragEnd(Lvl9(width, compact), s, i, at, dragStart);
      && r.session.incorrectAttempts == s.incorrectAttempts
      && r.session.hidden == s.hidden + {i}
      && r.session.correctMatches == s.correctMatches + {CardNames[i]}
      && (CardNames[i] in s.correctMatches ==> r.session.correctMatches == s.correctMatches)
      && r.rest == Lvl9(width, compact).targets[0].pos
      && (r.outcome == Complete <==> |r.session.correctMatches| == 3)
  {
  }

  /** Level 9: a miss counts one attempt, keeps the recorded matches, sends
      the card back, and raises the answer popup exactly when six or more
      attempts have failed and fewer than three answers are recorded. */
  lemma Lvl9MissEffect(width: real, compact: bool, s: Session, i: nat, at: Point, dragStart: Point)
    requires i < TotalCircles
    requires !OnDragEnd(Lvl9(width, compact), s, i, at, dragStart).outcome.Matched()
    ensures var r := OnDragEnd(Lvl9(width, compact), s, i, at, dragStart);
      && r.session.incorrectAttempts == s.incorrectAttempts + 1
      && r.session.correctMatches == s.correctMatches
      && r.session.hidden == s.hidden
      && r.rest == dragStart
      && (r.outcome == Reveal <==> s.incorrectAttempts + 1 >= 6 && |s.correctMatches| < 3)
  {
  }

  /** In every reachable level 9 session the recorded matches are accepted
      answers, at most three of them. */
  lemma Lvl9MatchesBounded(width: real, compact: bool, s: Session)
    requires Valid(Lvl9(width, compact), s)
    ensures s.correctMatches <= {"Honey_bee", "Solitary_bee", "Stingless_bees"}
    ensures |s.correctMatches| <= 3
  {
    var level := Lvl9(width, compact);
    MatchesWithinAnswers(level, s);
    assert (set a | a in CorrectAnswers) == {"Honey_bee", "Solitary_bee", "Stingless_bees"};
  }

  /** Card names are pairwise distinct. */
  lemma CardNamesDistinct(j: nat, k: nat)
    requires j < TotalCircles && k < TotalCircles && CardNames[j] == CardNames[k]
    ensures j == k
  {
  }

  /** Three recorded matches on level 9 are exactly the three answers. */
  lemma Lvl9FullIsAllAnswers(width: real, compact: bool, s: Session)
    requires Valid(Lvl9(width, compact), s) && |s.correctMatches| == 3
    ensures s.correctMatches == {"Honey_bee", "Solitary_bee", "Stingless_bees"}
  {
    var answers := {"Honey_bee", "Solitary_bee", "Stingless_bees"};
    Lvl9MatchesBounded(width, compact, s);
    assert |answers| == 3;
    assert answers == s.correctMatches + (answers - s.correctMatches);
    assert |answers - s.correctMatches| == 0;
  }

  /** A level 9 session holding three matches has hidden all three answer cards. */
  lemma Lvl9FullMeansAllHidden(width: real, compact: bool, s: Session)
    requires Valid(Lvl9(width, compact), s) && |s.correctMatches| == 3
    ensures AllMatchableHidden(Lvl9(width, compact), s)
  {
    var level := Lvl9(width, compact);
    Lvl9FullIsAllAnswers(width, compact, s);
    forall j | 0 <= j < |level.cards| && Matchable(level, j)
      ensures j in s.hidden
    {
      assert level.cards[j].key == CardNames[j];
      var k :| k in s.hidden && k < |level.cards| && level.cards[k].key == CardNames[j];
      assert level.cards[k].key == CardNames[k];
      CardNamesDistinct(j, k);
    }
  }

  /** Conversely, a level 9 session with every answer card hidden has
      recorded all three answers. */
  lemma Lvl9AllHiddenIsFull(width: real, compact: bool, s: Session)
    requires Valid(Lvl9(width, compact), s) && AllMatchableHidden(Lvl9(width, compact), s)
    ensures |s.correctMatches| == 3
  {
    var level := Lvl9(width, compact);
    var answers := {"Honey_bee", "Solitary_bee", "Stingless_bees"};
    forall j | j in {1, 2, 4}
      ensures j in s.hidden && level.cards[j].key == CardNames[j]
    {
      assert Accepts(level.rule, level.cards[j], level.targets[0]);
      assert Matchable(level, j);
    }
    assert level.cards[1].key in s.correctMatches;
    assert level.cards[2].key in s.correctMatches;
    assert level.cards[4].key in s.correctMatches;
    assert answers <= s.correctMatches;
    Lvl9MatchesBounded(width, compact, s);
    assert s.correctMatches == answers;
  }

  /** On level 9 the match that hides the last answer card raises the
      congratulations popup. */
  lemma Lvl9FinishingMatchCompletes(width: real, compact: bool)
    ensures FinishingMatchCompletes(Lvl9(width, compact))
  {
    var level := Lvl9(width, compact);
    forall s: Session, i: nat, at: Point, dragStart: Point
      | Valid(level, s) && i < |level.cards| && i !in s.hidden
      ensures OnDragEnd(level, s, i, at, dragStart).outcome.Matched()
              && AllMatchableHidden(level, OnDragEnd(level, s, i, at, dragStart).session)
              ==> OnDragEnd(level, s, i, at, dragStart).outcome.Complete?
    {
      var r := OnDragEnd(level, s, i, at, dragStart);
      if r.outcome.Matched() && AllMatchableHidden(level, r.session) {
        StepPreservesValid(level, s, i, at, dragStart);
        Lvl9AllHiddenIsFull(width, compact, r.session);
      }
    }
  }

  /** Returning to level 9 after finishing it brings the cards back but keeps
      the three recorded names: the session no longer satisfies the
      invariant, an answer card dropped on the target raises the
      congratulations popup again, and the answer popup can no longer fire. */
  lemma Lvl9Reentry(width: real, compact: bool, s: Session, i: nat, at: Point, dragStart: Point)
    requires Valid(Lvl9(width, compact), s) && |s.correctMatches| == 3 && i < TotalCircles
    ensures !Valid(Lvl9(width, compact), Reenter(s))
    ensures Deliver(Lvl9(width, compact), Reenter(s), Drop(i, at, dragStart)).Some?
    ensures var r := Deliver(Lvl9(width, compact), Reenter(s), Drop(i, at, dragStart)).value;
      && (r.outcome.Matched() <==>
            CardNames[i] in CorrectAnswers && CloseEnough(at, Lvl9(width, compact).targets[0].pos))
      && (r.outcome.Matched() ==> r.outcome == Complete)
      && r.outcome != Reveal
  {
    var level := Lvl9(width, compact);
    Lvl9FullIsAllAnswers(width, compact, s);
    assert "Honey_bee" in Reenter(s).correctMatches;
    Lvl9MatchIff(width, compact, Reenter(s), i, at, dragStart);
    var r := OnDragEnd(level, Reenter(s), i, at, dragStart);
    if r.outcome.Matched() {
      Lvl9Answers(i);
      assert r.session.correctMatches == s.correctMatches;
    }
  }

  lemma Lvl9CompleteFinishes(width: real, compact: bool)
    ensures CompleteFinishes(Lvl9(width, compact))
  {
    var level := Lvl9(width, compact);
    forall s: Session, i: nat, at: Point, dragStart: Point
      | Valid(level, s) && i < |level.cards| && i !in s.hidden
      ensures OnDragEnd(level, s, i, at, dragStart).outcome.Complete? ==>
                AllMatchableHidden(level, OnDragEnd(level, s, i, at, dragStart).session)
    {
      var r := OnDragEnd(level, s, i, at, dragStart);
      if r.outcome.Complete? {
        StepPreservesValid(level, s, i, at, dragStart);
        Lvl9FullMeansAllHidden(width, compact, r.session);
      }
    }
  }

  /** Once level 9 holds all three answers, every later drop is a plain miss:
      no match, no success popup and no answer popup. */
  lemma {:induction false} Lvl9QuietAfterCompletion(width: real, compact: bool, s: Session, drops: seq<Drop>)
    requires Valid(Lvl9(width, compact), s) && |s.correctMatches| == 3
    ensures forall k :: 0 <= k < |Run(Lvl9(width, compact), s, drops).outcomes| ==>
      Run(Lvl9(width, compact), s, drops).outcomes[k] == Fail
    decreases |drops|
  {
    var level := Lvl9(width, compact);
    if |drops| > 0 {
      Lvl9FullMeansAllHidden(width, compact, s);
      match Deliver(level, s, drops[0])
      case None => Lvl9QuietAfterCompletion(width, compact, s, drops[1..]);
      case Some(st) =>
        var d := drops[0];
        assert !Matchable(level, d.card);
        UnmatchableNeverMatches(level, s, d.card, d.at, d.dragStart);
        StepPreservesValid(level, s, d.card, d.at, d.dragStart);
        Lvl9QuietAfterCompletion(width, compact, st.session, drops[1..]);
    }
  }

  /** From the constructor's state, one visit to level 9 raises its success
      popup exactly once if all three answers end up recorded and never
      otherwise, keeps at most three recorded matches, and counts every miss. */
  lemma Lvl9Session(width: real, compact: bool, drops: seq<Drop>)
    ensures Count(Run(Lvl9(width, compact), Init(), drops).outcomes, Complete) <= 1
    ensures |Run(Lvl9(width, compact), Init(), drops).session.correctMatches| == 3 ==>
      Count(Run(Lvl9(width, compact), Init(), drops).outcomes, Complete) == 1
    ensures |Run(Lvl9(width, compact), Init(), drops).session.correctMatches| < 3 ==>
      Count(Run(Lvl9(width, compact), Init(), drops).outcomes, Complete) == 0
    ensures Run(Lvl9(width, compact), Init(), drops).session.incorrectAttempts
              == Misses(Run(Lvl9(width, compact), Init(), drops).outcomes)
    ensures Run(Lvl9(width, compact), Init(), drops).session.correctMatches
              <= {"Honey_bee", "Solitary_bee", "Stingless_bees"}
  {
    var level := Lvl9(width, compact);
    InitValid(level);
    Lvl9CompleteFinishes(width, compact);
    CompleteAtMostOnce(level, Init(), drops);
    RunPreservesValid(level, Init(), drops);
    var last := Run(level, Init(), drops).session;
    Lvl9MatchesBounded(width, compact, last);
    Lvl9FinishingMatchCompletes(width, compact);
    CompleteWhenFinished(level, Init(), drops);
    assert Accepts(level.rule, level.cards[4], level.targets[0]);
    assert Matchable(level, 4);
    if |last.correctMatches| == 3 {
      Lvl9FullMeansAllHidden(width, compact, last);
    }
    CompleteMeansAllAnswers(level, Init(), drops);
  }
}

=== FILE: wrappers.dfy ===
/** The optional-value datatype used across the model. */
module Wrappers {

  /** A value that may be absent: stands for JavaScript's `undefined` where a
      property was never set, and for a search that found nothing. */
  datatype Option<+T> = None | Some(value: T)
}
